=== FILE: README.md ===
# Lead bookkeeping, phone collection and find-leads request construction

A Dafny model of the deterministic core of a lead-outreach app:

- **Front end** (`frontend/script.js`): `getPhoneNumbers`, which gathers every
  phone value of a lead's contact information in a fixed field order, drops
  falsy values and removes duplicates keeping first occurrences; and the
  bookkeeping of `processedLeads` (a set of emails) and `selectedLeads` (an
  insertion-ordered map from email to lead) with `isLeadProcessed`, `markLeadAsProcessed`,
  `addToSelected` and `removeLead`.
- **Service** (`service/main.py`): in `find_leads`, the people-search payload,
  the enrichment payload, the merge of the enriched record over the search
  record into a `LeadRequest`, the rule that outreach mail is sent only when
  the merged email is non-empty, and the loop over the people found; in
  `push_to_hubspot`, the contact-search body and the choice between updating
  the first match (without the email) and creating a contact (with it).

Modules:

| file | module | what |
|---|---|---|
| wrappers.dfy | `Wrappers` | `Option`, `Result` |
| insertion_order.dfy | `InsertionOrder` | order of a JavaScript `Set` and `Map`: `Unique`, `FirstIndex`, `Delete`, their lemmas |
| phones.dfy | `Phones` | JavaScript values and truthiness, `ContactInfo`, `GetPhoneNumbers` and its specification `PhoneNumbers` |
| lead_state.dfy | `LeadState` | class `LeadBook` holding `selected` (map), its key `order` (sequence) and `processed` (set) |
| models.dfy | `Models` | `LeadRequest`, `SearchRequest` |
| py_json.dfy | `PyJson` | decoded JSON, Python truthiness, `dict.get`, the exceptions raised |
| hubspot.dfy | `HubSpot` | search body, contact properties, update-or-create decision |
| apollo.dfy | `Apollo` | search payload, enrichment payload, merge, mail rule, the people loop |

How the source is rendered:

- JavaScript values in phone fields are a datatype (`Undefined`, `Null`,
  `Bool`, `Number`, `Str`, `Object`), with JavaScript truthiness; objects are
  compared by reference, as a `Set` does. `getPhoneNumbers` is a method whose
  phases (field checks, array spreads, `filter`, `new Set` plus spread) are
  methods; the field checks and spreads are straight-line code, and the last
  two phases are loops. The whole is proved equal to `PhoneNumbers`, which is defined
  independently as "the truthy candidates, deduplicated, in candidate order".
- The two module-level collections are the fields of one object (`LeadBook`)
  whose methods update them in place.
- Python dictionaries from decoded JSON are `map<string, Json>`.
  `d.get(k, default)` yields the stored value whenever the key is present,
  even a `null`. The fallback of every `get` is evaluated whether or not it is
  used, so a present but non-object `organization` raises even when the
  enrichment supplies `organization_name`. A `.get` on something that is not
  a dict raises `AttributeError`. A `LeadRequest` field that is not a string
  fails validation. All of these end the request, and the model returns them
  as `Err` faults.
- Apollo search, Apollo enrichment and the HubSpot contact search are
  function parameters (`search`, `enrich`, `crmSearch`). The model records the
  requests the code builds for them: the search payload, the enrichment
  payload, and the HubSpot update or create request.

What the code does, in points a reader might expect otherwise:

- The merge defaults missing names to "".
- It takes the enriched value whenever its key is present, even a `null`.
- The lead has no description field, and there is no reveal lookup, no
  exclusion filter and no cap on the number of leads.
- The outreach mail of `find_leads` goes to one fixed internal address, not
  to the lead (`service/main.py:251`).

## Model

| member | source | states |
|---|---|---|
| `InsertionOrder.UniqueMembers` | frontend/script.js:97 | the deduplicated list holds exactly the values of its input |
| `InsertionOrder.UniqueNoDuplicates` | frontend/script.js:97 | the deduplicated list holds each value once |
| `InsertionOrder.UniqueFollowsFirstOccurrence` | frontend/script.js:97 | a `Set` spread lists values in the order of their first occurrence in the input |
| `InsertionOrder.DeleteSplices` | frontend/script.js:182 | `Map.delete` cuts the key out of the insertion order where it stands, and leaves the order alone when the key is absent |
| `InsertionOrder.DeleteMembers` | frontend/script.js:182 | after a delete the order lists exactly the other keys, each once |
| `Phones.KeepTruthyMembers` | frontend/script.js:97 | `filter(p => p)` keeps exactly the truthy values |
| `Phones.KeepTruthyKeepsOrder` | frontend/script.js:97 | filtering preserves the relative order of first occurrences of the values kept |
| `Phones.PushedFieldsAreTruthyFields` | frontend/script.js:42-84 | the ten field checks push exactly the truthy fields, in field order |
| `Phones.PushedKeepsTruthyCandidates` | frontend/script.js:42-94 | after filtering, what was pushed equals the truthy candidates: fields, then `phone_numbers`, then `revealed_phone_numbers` |
| `Phones.PushPhoneFields` | frontend/script.js:42-84 | the field checks push each truthy field, sanitized fields first, then direct, mobile and revealed fields |
| `Phones.CollectPhones` | frontend/script.js:40-94 | the arrays are spread after the fields, each only when present and non-empty |
| `Phones.FilterTruthy` | frontend/script.js:97 | the loop returns the truthy entries in order |
| `Phones.SpreadSet` | frontend/script.js:97 | the loop returns each value once, at its first insertion |
| `Phones.GetPhoneNumbers` | frontend/script.js:35-100 | the result equals the truthy candidates, deduplicated, in candidate order; `[]` without contact information |
| `Phones.PhoneNumbersAbsent` | frontend/script.js:36 | no contact information gives no phone numbers |
| `Phones.PhoneNumbersNoDuplicates` | frontend/script.js:97 | no phone number is listed twice |
| `Phones.PhoneNumbersExactlyTruthyCandidates` | frontend/script.js:43-97 | a value is listed iff it is a truthy field value or a truthy array element; so no null, undefined, empty or zero entry |
| `Phones.PhoneNumbersInCandidateOrder` | frontend/script.js:42-97 | listed numbers follow the order of their first occurrence in the fixed field order, then the two arrays |
| `LeadState.SucceededEmails` | frontend/script.js:318-322 | the emails of results without error whose lead has a non-empty email |
| `LeadState.LeadsInOrder` | frontend/script.js:167 | the leads listed are those stored under the keys, position by position |
| `LeadState.NewKeyListedLast` | frontend/script.js:167-177 | a lead stored under a new email is listed after all leads listed before |
| `LeadState.LeadBook.constructor` | frontend/script.js:7-8 | both collections start empty, with an empty key order |
| `LeadState.LeadBook.SelectedLeads` | frontend/script.js:297 | `Array.from(selectedLeads.values())` lists one lead per selected email, in key insertion order |
| `LeadState.LeadBook.IsLeadProcessed` | frontend/script.js:25-27 | true iff the email is in the processed set |
| `LeadState.LeadBook.MarkLeadAsProcessed` | frontend/script.js:29-33 | adds the email iff it is non-empty, else the set is unchanged; afterwards the lead is processed; the selection is untouched |
| `LeadState.LeadBook.AddToSelected` | frontend/script.js:172-179 | an already-processed email leaves the selection and its order unchanged (and alerts); otherwise the email maps to the lead and every other entry is unchanged; a replaced entry keeps its place, a new email goes last |
| `LeadState.LeadBook.RemoveLead` | frontend/script.js:181-184 | removes exactly that email's entry, and deletes it from the key order |
| `LeadState.LeadBook.MarkSucceeded` | frontend/script.js:317-322 | marks processed exactly the successful results' non-empty emails |
| `LeadState.LeadBook.ClearSelected` | frontend/script.js:344 | the selection and its order are emptied; processed emails stay |
| `PyJson.GetOn` | service/main.py:226 | `.get` on a dict returns the stored value or the default; on anything else it raises `AttributeError` |
| `HubSpot.SearchBody` | service/main.py:119-131 | the search body reads back as one `email EQ <lead email>` filter, with no other key at any level |
| `HubSpot.ContactProperties` | service/main.py:142-165 | firstname, lastname, phone and company from the lead, plus the email exactly when creating |
| `HubSpot.FirstResultId` | service/main.py:139 | `results[0]["id"]` succeeds iff the results are an array whose first element is an object with an id |
| `HubSpot.PushToHubSpot` | service/main.py:136-169 | falsy results create a contact with the email; otherwise the first result's id is updated without the email; an unreadable first id is a fault |
| `HubSpot.CreateIsUpdatePlusEmail` | service/main.py:142-165 | update properties never hold the email; create properties are the update properties plus the email |
| `Apollo.BuildSearchPayload` | service/main.py:197-211 | `per_page` is 5; each filter is present iff its criterion is non-empty, as a one-element list; no other key; the query reads back from the payload |
| `Apollo.SearchPayloadUnique` | service/main.py:197-211 | those conditions determine the payload completely |
| `Apollo.OrganizationName` | service/main.py:226 | the organization's name, "" when organization or name is missing; a non-object organization raises |
| `Apollo.EnrichPayload` | service/main.py:223-229 | copies first name, last name, LinkedIn URL ("" when missing) and the organization name; always sets `reveal_personal_emails` to true |
| `Apollo.MergeLead` | service/main.py:236-243 | each field is the enriched value when its key is present, else the search value, else ""; the company falls back to the organization's name; `message` is ""; the merge succeeds iff the enrichment is a dict, the organization lookup succeeds and all five chosen values are strings; the exact conditions for `AttributeError` and for validation failure |
| `Apollo.PresentNullWins` | service/main.py:239 | a present but null enriched email is taken, and validation fails, whatever the search record holds |
| `Apollo.EmptyEnrichmentEchoesPayload` | service/main.py:224-241 | with an empty enrichment, names and company are the values sent in the enrichment payload |
| `Apollo.SearchRecordOnly` | service/main.py:236-243 | Jane Doe at Acme with no enrichment gives exactly the search record's fields |
| `Apollo.EnrichedCompanyWins` | service/main.py:241 | an enriched `organization_name` overrides the organization's name |
| `Apollo.OutreachMail` | service/main.py:249-251 | mail is sent iff the lead's email is non-empty, to the fixed internal address, with the subject naming the lead |
| `Apollo.ProcessPerson` | service/main.py:220-258 | a non-object person raises; a processed lead has mail iff its email is non-empty |
| `Apollo.ProcessPersonSucceeds` | service/main.py:220-258 | a person is processed iff it is a dict, its enrichment payload is built, the merge with the enrichment returned succeeds, and the contact search for the lead's email finds nothing or a first result with an id |
| `Apollo.ProcessPersonOutcome` | service/main.py:220-246 | a processed person's enrichment payload asks for personal emails; the lead's fields follow the merge precedence over the enrichment returned, with an empty message; the contact is created with the email iff the CRM search for the lead's email found nothing, otherwise updated without it |
| `Apollo.RunIsSuccessfulPrefix` | service/main.py:213-260 | the created leads are those of the longest prefix of people that succeed, in order; a failure is the first failing person's fault |
| `Apollo.ProcessPeople` | service/main.py:220-258 | the loop computes exactly that result |
| `Apollo.FindLeads` | service/main.py:189-260 | the search payload satisfies the payload rules and the result is that of the people the search returned |
| `Apollo.MailOnlyWithEmail` | service/main.py:250-251 | every created lead had mail sent iff its email is non-empty, always to the internal address |

## Left out

- DOM rendering and UI (`createLeadCard`, `createLinkedInLink`, `updateSelectedLeadsUI`, the loading spinner, the form handlers' `fetch` calls): presentation and asynchronous network code. Only the bookkeeping of the process-selected handler is modelled (`MarkSucceeded`, `ClearSelected`).
- `console.log` calls in `getPhoneNumbers`: logging only.
- Phone values that are floating-point numbers or `NaN`, and `phone_numbers` values that are not arrays (such as a string, whose characters a spread would push): phone values are modelled as integers, strings, booleans, null, undefined and object references.
- All HTTP transport to Apollo and HubSpot, and the mapping of `requests` exceptions to HTTP 500 responses: the calls' answers are parameters, and transport failures are not modelled.
- The shape of the HTTP response bodies before the looked-up key: the search is taken to yield a list of people, and the HubSpot search to yield the value of its `results` key.
- Email text generation and the lead-scoring agent: language-model calls with no checkable behaviour. So the `email` and `score` entries of each result, and the mail body, are not modelled, nor are their failures (the `HTTPException` of `generate_email`, any exception of the scoring agent), which end `find_leads`.
- SMTP sending: network I/O. The model records which mail would be sent (recipient and subject); a sending failure, whose `HTTPException` ends `find_leads`, is not modelled.
- The `create-lead` endpoint (`service/main.py:177-187`): it chains text generation, the CRM upsert and SMTP sending without logic of its own beyond `push_to_hubspot`, which is modelled.
- Environment configuration, FastAPI and CORS setup, and the health check in `main.py`: framework wiring.
- Exclusion-email filtering, a 20-lead cap and reveal lookups: not present in the modelled code.
- Apollo.MergeLead: validation accepts only JSON strings; a pydantic version that coerces numbers to strings would accept a numeric field that the model rejects.
- Apollo.ProcessPerson, Apollo.Run: the enrichment and CRM-search answers are functions of the request alone, so within one request two people sending the same request get the same answer. In the program the calls are sequential, and a contact created for one lead can make a later lead's contact search with the same email find it, turning that lead's create into an update; the model does not capture this.
- Dictionary key order in the payloads: irrelevant to the JSON the services receive.
- When a person fails, the requests already made for that person before the failure (the enrichment call, and the CRM search when the id lookup fails) are not listed among the created leads.

=== FILE: apollo.dfy ===
/**
 * The find-leads endpoint of the service: the people-search payload, the
 * enrichment payload, the merge of the enriched record over the search
 * record into a LeadRequest, the outreach-mail rule, and the loop over the
 * people found. The search, enrichment and CRM-search calls are parameters.
 */
module Apollo {
  import opened Wrappers
  import opened PyJson
  import opened Models
  import HubSpot

  /** Results requested per search page. */
  const PageSize := 5

  /** The keys a search payload may hold. */
  const SearchKeys: set<string> := {"per_page", "person_titles", "organization_names", "person_locations", "industry_tags"}

  /** The fixed internal address every outreach mail of find-leads goes to. */
  const OutreachRecipient := "dina.adel@monstersgraphics.com"

  // ----- search payload -----

  /** `key` holds the one-element list `[value]` exactly when `value` is non-empty. */
  predicate FilterFor(payload: map<string, Json>, key: string, value: string) {
    (key in payload <==> value != "") && (key in payload ==> payload[key] == JArray([JStr(value)]))
  }

  /** The search payload for a query: the page size, and one filter per non-empty criterion. */
  predicate IsSearchPayloadFor(query: SearchRequest, payload: map<string, Json>) {
    payload.Keys <= SearchKeys
    && "per_page" in payload && payload["per_page"] == JNum(PageSize)
    && FilterFor(payload, "person_titles", query.jobTitle)
    && FilterFor(payload, "organization_names", query.organizationName)
    && FilterFor(payload, "person_locations", query.location)
    && FilterFor(payload, "industry_tags", query.industryTag)
  }

  /** The criterion a filter key carries, "" when the key is absent. */
  function FilterValue(payload: map<string, Json>, key: string): string {
    if key in payload && payload[key].JArray? && |payload[key].items| == 1 && payload[key].items[0].JStr?
    then payload[key].items[0].s
    else ""
  }

  /** The query a search payload was built from, read back from its filters. */
  function QueryOf(payload: map<string, Json>): SearchRequest {
    SearchRequest(
      FilterValue(payload, "person_titles"),
      FilterValue(payload, "organization_names"),
      FilterValue(payload, "person_locations"),
      FilterValue(payload, "industry_tags"))
  }

  /** The payload starts with the page size; each non-empty criterion then adds its filter. */
  method BuildSearchPayload(query: SearchRequest) returns (payload: map<string, Json>)
    ensures IsSearchPayloadFor(query, payload)
    ensures QueryOf(payload) == query
  {
    payload := map["per_page" := JNum(PageSize)];
    if query.jobTitle != "" {
      payload := payload["person_titles" := JArray([JStr(query.jobTitle)])];
    }
    if query.organizationName != "" {
      payload := payload["organization_names" := JArray([JStr(query.organizationName)])];
    }
    if query.location != "" {
      payload := payload["person_locations" := JArray([JStr(query.location)])];
    }
    if query.industryTag != "" {
      payload := payload["industry_tags" := JArray([JStr(query.industryTag)])];
    }
  }

  /** A query has one search payload. */
  lemma SearchPayloadUnique(query: SearchRequest, p1: map<string, Json>, p2: map<string, Json>)
    requires IsSearchPayloadFor(query, p1) && IsSearchPayloadFor(query, p2)
    ensures p1 == p2
  {
    assert p1.Keys == p2.Keys;
    forall k | k in p1 ensures p1[k] == p2[k] {
    }
  }

  // ----- enrichment payload and merge -----

  /** The keys of the enrichment payload. */
  const EnrichKeys: set<string> := {"first_name", "last_name", "organization_name", "linkedin_url", "reveal_personal_emails"}

  /** `person.get("organization", {}).get("name", "")`: fails when the organization is present but not an object. */
  function OrganizationName(person: map<string, Json>): (r: Result<Json, Fault>)
    ensures r.Err? <==> "organization" in person && !person["organization"].JObject?
    ensures r.Err? ==> r.error == AttributeError
    ensures r.Ok? ==> r.value == if "organization" in person && "name" in person["organization"].fields
                                 then person["organization"].fields["name"] else JStr("")
  {
    GetOn(Get(person, "organization", JObject(map[])), "name", JStr(""))
  }

  /** The enrichment payload: identity fields of the search record, "" when missing, and the personal-email flag. */
  function EnrichPayload(person: map<string, Json>): (r: Result<map<string, Json>, Fault>)
    ensures r.Err? <==> OrganizationName(person).Err?
    ensures r.Ok? ==> r.value.Keys == EnrichKeys
    ensures r.Ok? ==> r.value["reveal_personal_emails"] == JBool(true)
    ensures r.Ok? ==> r.value["organization_name"] == OrganizationName(person).value
    ensures r.Ok? ==> forall k :: k in {"first_name", "last_name", "linkedin_url"} ==>
                        r.value[k] == if k in person then person[k] else JStr("")
  {
    match OrganizationName(person)
    case Err(f) => Err(f)
    case Ok(org) =>
      Ok(map[
        "first_name" := Get(person, "first_name", JStr("")),
        "last_name" := Get(person, "last_name", JStr("")),
        "organization_name" := org,
        "linkedin_url" := Get(person, "linkedin_url", JStr("")),
        "reveal_personal_emails" := JBool(true)])
  }

  /** The precedence of one lead field: the enriched value whenever its key is present, else the search value, else "". */
  function Chosen(enriched: map<string, Json>, enrichedKey: string, person: map<string, Json>, personKey: string): Json {
    if enrichedKey in enriched then enriched[enrichedKey]
    else if personKey in person then person[personKey]
    else JStr("")
  }

  /** The company: the enriched organization_name whenever present, else the search record's organization name, else "". */
  function ChosenCompany(enriched: map<string, Json>, person: map<string, Json>): Json
    requires OrganizationName(person).Ok?
  {
    if "organization_name" in enriched then enriched["organization_name"]
    else if "organization" in person && "name" in person["organization"].fields then person["organization"].fields["name"]
    else JStr("")
  }

  /** Every field of the lead the merge would build is a string. */
  predicate MergedAreStrings(enriched: map<string, Json>, person: map<string, Json>)
    requires OrganizationName(person).Ok?
  {
    Chosen(enriched, "first_name", person, "first_name").JStr?
    && Chosen(enriched, "last_name", person, "last_name").JStr?
    && Chosen(enriched, "email", person, "email").JStr?
    && Chosen(enriched, "phone_number", person, "phone").JStr?
    && ChosenCompany(enriched, person).JStr?
  }

  /**
   * The LeadRequest built from a search record and its enrichment (`person` of
   * the match response, `{}` when missing). The fallback of each `get` is
   * evaluated whether or not it is used.
   */
  function MergeLead(person: map<string, Json>, enriched: Json): (r: Result<LeadRequest, Fault>)
    ensures r.Ok? <==> enriched.JObject? && OrganizationName(person).Ok? && MergedAreStrings(enriched.fields, person)
    ensures (r.Err? && r.error == AttributeError) <==> !enriched.JObject? || OrganizationName(person).Err?
    ensures (r.Err? && r.error == ValidationError) <==>
              enriched.JObject? && OrganizationName(person).Ok? && !MergedAreStrings(enriched.fields, person)
    ensures r.Ok? ==>
              JStr(r.value.firstname) == Chosen(enriched.fields, "first_name", person, "first_name")
              && JStr(r.value.lastname) == Chosen(enriched.fields, "last_name", person, "last_name")
              && JStr(r.value.email) == Chosen(enriched.fields, "email", person, "email")
              && JStr(r.value.phone) == Chosen(enriched.fields, "phone_number", person, "phone")
              && JStr(r.value.company) == ChosenCompany(enriched.fields, person)
              && r.value.message == ""
  {
    match enriched
    case JObject(e) =>
      (match OrganizationName(person)
       case Err(f) => Err(f)
       case Ok(org) =>
         var first := Get(e, "first_name", Get(person, "first_name", JStr("")));
         var last := Get(e, "last_name", Get(person, "last_name", JStr("")));
         var email := Get(e, "email", Get(person, "email", JStr("")));
         var phone := Get(e, "phone_number", Get(person, "phone", JStr("")));
         var company := Get(e, "organization_name", org);
         if first.JStr? && last.JStr? && email.JStr? && phone.JStr? && company.JStr?
         then Ok(LeadRequest(first.s, last.s, email.s, phone.s, company.s, ""))
         else Err(ValidationError))
    case _ => Err(AttributeError)
  }

  /** A key present in the enrichment wins even when its value is null: the lead is then rejected. */
  lemma PresentNullWins(person: map<string, Json>, enriched: map<string, Json>)
    requires OrganizationName(person).Ok?
    requires "email" in enriched && enriched["email"] == JNull
    ensures MergeLead(person, JObject(enriched)) == Err(ValidationError)
  {
  }

  /** With an empty enrichment, names and company are the ones sent in the enrichment payload. */
  lemma EmptyEnrichmentEchoesPayload(person: map<string, Json>)
    requires EnrichPayload(person).Ok?
    requires MergeLead(person, JObject(map[])).Ok?
    ensures var p, lead := EnrichPayload(person).value, MergeLead(person, JObject(map[])).value;
            p["first_name"] == JStr(lead.firstname) && p["last_name"] == JStr(lead.lastname)
            && p["organization_name"] == JStr(lead.company)
  {
  }

  /** A search record with names, email and organization, and an empty enrichment, gives the search record's values. */
  lemma SearchRecordOnly()
    ensures MergeLead(
              map["first_name" := JStr("Jane"), "last_name" := JStr("Doe"), "email" := JStr("jane@x.com"),
                  "organization" := JObject(map["name" := JStr("Acme")])],
              JObject(map[]))
            == Ok(LeadRequest("Jane", "Doe", "jane@x.com", "", "Acme", ""))
  {
  }

  /** The enriched organization name wins over the search record's organization name. */
  lemma EnrichedCompanyWins()
    ensures MergeLead(
              map["first_name" := JStr("Jane"), "last_name" := JStr("Doe"),
                  "organization" := JObject(map["name" := JStr("Acme")])],
              JObject(map["organization_name" := JStr("Acme Corp")]))
            == Ok(LeadRequest("Jane", "Doe", "", "", "Acme Corp", ""))
  {
  }

  // ----- outreach mail -----

  /** The outreach mail sent for a lead. */
  datatype Mail = Mail(to: string, subject: string)

  /** Mail goes out only when the lead has an email, always to the fixed internal address. */
  function OutreachMail(lead: LeadRequest): (m: Option<Mail>)
    ensures m.Some? <==> lead.email != ""
    ensures m.Some? ==> m.value.to == OutreachRecipient
    ensures m.Some? ==> m.value.subject == "Exciting Opportunity for " + lead.firstname + " " + lead.lastname
  {
    if |lead.email| > 0
    then Some(Mail(OutreachRecipient, "Exciting Opportunity for " + lead.firstname + " " + lead.lastname))
    else None
  }

  // ----- the loop over the people found -----

  /** What processing one person produced. */
  datatype LeadOutcome = LeadOutcome(
    enrichPayload: map<string, Json>,
    lead: LeadRequest,
    crm: HubSpot.CrmRequest,
    mail: Option<Mail>)

  /**
   * One iteration: enrichment payload, enrichment (`enrich`), merge, CRM upsert
   * (`crmSearch` answers the contact search), then the mail.
   */
  function ProcessPerson(person: Json, enrich: map<string, Json> -> Json, crmSearch: Json -> Json): (r: Result<LeadOutcome, Fault>)
    ensures !person.JObject? ==> r == Err(AttributeError)
    ensures r.Ok? ==> (r.value.mail.Some? <==> r.value.lead.email != "")
  {
    match person
    case JObject(fields) =>
      (match EnrichPayload(fields)
       case Err(f) => Err(f)
       case Ok(payload) =>
         match MergeLead(fields, enrich(payload))
         case Err(f) => Err(f)
         case Ok(lead) =>
           match HubSpot.PushToHubSpot(lead, crmSearch(HubSpot.SearchBody(lead.email)))
           case Err(f) => Err(f)
           case Ok(crm) => Ok(LeadOutcome(payload, lead, crm, OutreachMail(lead))))
    case _ => Err(AttributeError)
  }

  /**
   * When a person is processed: the person is a dict, the enrichment payload
   * is built, the merge with the enrichment returned yields a lead, and the
   * contact search for its email finds nothing or a first result with an id.
   */
  lemma ProcessPersonSucceeds(person: Json, enrich: map<string, Json> -> Json, crmSearch: Json -> Json)
    ensures ProcessPerson(person, enrich, crmSearch).Ok? <==>
              person.JObject? && EnrichPayload(person.fields).Ok?
              && MergeLead(person.fields, enrich(EnrichPayload(person.fields).value)).Ok?
              && var lead := MergeLead(person.fields, enrich(EnrichPayload(person.fields).value)).value;
                 var results := crmSearch(HubSpot.SearchBody(lead.email));
                 !Truthy(results) || HubSpot.HasFirstId(results)
  {
  }

  /**
   * What a processed person yields: the enrichment was asked for personal
   * emails; each lead field follows the merge precedence over the enrichment
   * returned; the contact is created, with the email, exactly when the CRM
   * search for the lead's email found nothing, and otherwise updated without it.
   */
  lemma ProcessPersonOutcome(person: Json, enrich: map<string, Json> -> Json, crmSearch: Json -> Json)
    ensures var r := ProcessPerson(person, enrich, crmSearch);
            r.Ok? ==>
              person.JObject?
              && r.value.enrichPayload.Keys == EnrichKeys
              && r.value.enrichPayload["reveal_personal_emails"] == JBool(true)
              && enrich(r.value.enrichPayload).JObject?
              && OrganizationName(person.fields).Ok?
    ensures var r := ProcessPerson(person, enrich, crmSearch);
            r.Ok? && person.JObject? && enrich(r.value.enrichPayload).JObject? && OrganizationName(person.fields).Ok? ==>
              var e, lead := enrich(r.value.enrichPayload).fields, r.value.lead;
              && JStr(lead.firstname) == Chosen(e, "first_name", person.fields, "first_name")
              && JStr(lead.lastname) == Chosen(e, "last_name", person.fields, "last_name")
              && JStr(lead.email) == Chosen(e, "email", person.fields, "email")
              && JStr(lead.phone) == Chosen(e, "phone_number", person.fields, "phone")
              && JStr(lead.company) == ChosenCompany(e, person.fields)
              && lead.message == ""
    ensures var r := ProcessPerson(person, enrich, crmSearch);
            r.Ok? ==>
              (r.value.crm.CreateContact? <==> !Truthy(crmSearch(HubSpot.SearchBody(r.value.lead.email))))
              && (r.value.crm.CreateContact? <==> "email" in r.value.crm.properties)
              && r.value.crm.properties == HubSpot.ContactProperties(r.value.lead, r.value.crm.CreateContact?)
  {
    var r := ProcessPerson(person, enrich, crmSearch);
    if r.Ok? {
      var payload := EnrichPayload(person.fields).value;
      var lead := MergeLead(person.fields, enrich(payload)).value;
      var crm := HubSpot.PushToHubSpot(lead, crmSearch(HubSpot.SearchBody(lead.email))).value;
      assert r.value == LeadOutcome(payload, lead, crm, OutreachMail(lead));
      HubSpot.CreateIsUpdatePlusEmail(lead);
    }
  }

  /**
   * The leads created before the request ended, and the fault that ended it
   * early, if any. With no failure, `created` is what the endpoint returns
   * under "results". With a failure, the endpoint raises and answers HTTP 500
   * without returning any lead; `created` then lists the work already done
   * (contacts written, mails sent) for the people before the failing one.
   */
  datatype FindLeadsResult = FindLeadsResult(created: seq<LeadOutcome>, failure: Option<Fault>)

  /**
   * People are processed in order; the first fault ends the request, after the
   * earlier people were fully processed.
   */
  function Run(people: seq<Json>, enrich: map<string, Json> -> Json, crmSearch: Json -> Json): FindLeadsResult
    decreases |people|
  {
    if |people| == 0 then FindLeadsResult([], None)
    else
      match ProcessPerson(people[0], enrich, crmSearch)
      case Err(f) => FindLeadsResult([], Some(f))
      case Ok(outcome) =>
        var rest := Run(people[1..], enrich, crmSearch);
        FindLeadsResult([outcome] + rest.created, rest.failure)
  }

  /**
   * The result is the longest prefix of people that all succeed: each created
   * lead comes from the person at its position, and a failure is the fault of
   * the first person that did not succeed.
   */
  lemma {:induction false} RunIsSuccessfulPrefix(people: seq<Json>, enrich: map<string, Json> -> Json, crmSearch: Json -> Json)
    ensures var r := Run(people, enrich, crmSearch);
            && |r.created| <= |people|
            && (forall k :: 0 <= k < |r.created| ==> ProcessPerson(people[k], enrich, crmSearch) == Ok(r.created[k]))
            && (r.failure.None? ==> |r.created| == |people|)
            && (r.failure.Some? ==>
                  |r.created| < |people| && ProcessPerson(people[|r.created|], enrich, crmSearch) == Err(r.failure.value))
    decreases |people|
  {
    if |people| > 0 && ProcessPerson(people[0], enrich, crmSearch).Ok? {
      RunIsSuccessfulPrefix(people[1..], enrich, crmSearch);
      var r := Run(people, enrich, crmSearch);
      forall k | 0 < k < |r.created|
        ensures ProcessPerson(people[k], enrich, crmSearch) == Ok(r.created[k])
      {
        assert people[k] == people[1..][k - 1];
      }
    }
  }

  /** The `for person in people` loop: process each person in turn, stopping at the first fault. */
  method ProcessPeople(people: seq<Json>, enrich: map<string, Json> -> Json, crmSearch: Json -> Json)
    returns (result: FindLeadsResult)
    ensures result == Run(people, enrich, crmSearch)
  {
    var created: seq<LeadOutcome> := [];
    var i := 0;
    while i < |people|
      invariant 0 <= i <= |people|
      invariant Run(people, enrich, crmSearch)
                == FindLeadsResult(created + Run(people[i..], enrich, crmSearch).created,
                                   Run(people[i..], enrich, crmSearch).failure)
    {
      assert people[i..][0] == people[i] && people[i..][1..] == people[i + 1..];
      var outcome := ProcessPerson(people[i], enrich, crmSearch);
      if outcome.Err? {
        return FindLeadsResult(created, Some(outcome.error));
      }
      created := created + [outcome.value];
      i := i + 1;
    }
    result := FindLeadsResult(created, None);
  }

  /**
   * find_leads: build the search payload, take the people the search returns
   * for it, and process them.
   */
  method FindLeads(query: SearchRequest, search: map<string, Json> -> seq<Json>,
                   enrich: map<string, Json> -> Json, crmSearch: Json -> Json)
    returns (payload: map<string, Json>, result: FindLeadsResult)
    ensures IsSearchPayloadFor(query, payload)
    ensures result == Run(search(payload), enrich, crmSearch)
  {
    payload := BuildSearchPayload(query);
    result := ProcessPeople(search(payload), enrich, crmSearch);
  }

  /** Every lead created had its mail sent exactly when its email is non-empty, and to the internal address. */
  lemma MailOnlyWithEmail(people: seq<Json>, enrich: map<string, Json> -> Json, crmSearch: Json -> Json)
    ensures forall o :: o in Run(people, enrich, crmSearch).created ==>
              (o.mail.Some? <==> o.lead.email != "") && (o.mail.Some? ==> o.mail.value.to == OutreachRecipient)
  {
    RunIsSuccessfulPrefix(people, enrich, crmSearch);
    var created := Run(people, enrich, crmSearch).created;
    forall o | o in created
      ensures (o.mail.Some? <==> o.lead.email != "") && (o.mail.Some? ==> o.mail.value.to == OutreachRecipient)
    {
      var k :| 0 <= k < |created| && created[k] == o;
      assert ProcessPerson(people[k], enrich, crmSearch) == Ok(o);
    }
  }
}

=== FILE: hubspot.dfy ===
/**
 * The CRM upsert of a lead (`push_to_hubspot`): search the contacts by
 * email, then update the first match or create a new contact. The HTTP
 * calls are left to the caller; this module builds the search body and
 * decides which request follows from the search results.
 */
module HubSpot {
  import opened Wrappers
  import opened PyJson
  import opened Models

  /** The write request sent after the search. */
  datatype CrmRequest =
    | UpdateContact(contactId: Json, properties: map<string, string>)
    | CreateContact(properties: map<string, string>)

  /** The object held, as the only element of an array, under `key` of the object `v`. */
  function OnlyObjectUnder(v: Json, key: string): Option<map<string, Json>> {
    if v.JObject? && v.fields.Keys == {key} && v.fields[key].JArray?
       && |v.fields[key].items| == 1 && v.fields[key].items[0].JObject?
    then Some(v.fields[key].items[0].fields)
    else None
  }

  /** The email a search body looks for: one filter group holding one `email EQ value` filter, and no other key at any level. */
  function SearchedEmail(body: Json): Option<string> {
    match OnlyObjectUnder(body, "filterGroups")
    case None => None
    case Some(group) =>
      match OnlyObjectUnder(JObject(group), "filters")
      case None => None
      case Some(filter) =>
        if filter.Keys == {"propertyName", "operator", "value"}
           && Get(filter, "propertyName", JNull) == JStr("email")
           && Get(filter, "operator", JNull) == JStr("EQ")
           && Get(filter, "value", JNull).JStr?
        then Some(filter["value"].s)
        else None
  }

  /** The body of the contact search: contacts whose email equals the lead's. */
  function SearchBody(email: string): (body: Json)
    ensures SearchedEmail(body) == Some(email)
  {
    var filter := map["propertyName" := JStr("email"), "operator" := JStr("EQ"), "value" := JStr(email)];
    var group := map["filters" := JArray([JObject(filter)])];
    JObject(map["filterGroups" := JArray([JObject(group)])])
  }

  /** The contact properties written for a lead; the email only when creating. */
  function ContactProperties(lead: LeadRequest, withEmail: bool): (p: map<string, string>)
    ensures p.Keys == {"firstname", "lastname", "phone", "company"} + (if withEmail then {"email"} else {})
    ensures p["firstname"] == lead.firstname && p["lastname"] == lead.lastname
    ensures p["phone"] == lead.phone && p["company"] == lead.company
    ensures withEmail ==> p["email"] == lead.email
  {
    var common := map["firstname" := lead.firstname, "lastname" := lead.lastname,
                       "phone" := lead.phone, "company" := lead.company];
    if withEmail then common["email" := lead.email] else common
  }

  /** Whether `results[0]["id"]` can be read: a non-empty array whose first element is an object holding "id". */
  predicate HasFirstId(results: Json) {
    results.JArray? && |results.items| > 0 && results.items[0].JObject? && "id" in results.items[0].fields
  }

  /** `results[0]["id"]` on truthy search results. */
  function FirstResultId(results: Json): (r: Result<Json, Fault>)
    requires Truthy(results)
    ensures r.Ok? <==> HasFirstId(results)
    ensures r.Ok? ==> r.value == results.items[0].fields["id"]
  {
    match results
    case JArray(items) =>
      (match items[0]
       case JObject(first) => if "id" in first then Ok(first["id"]) else Err(KeyError)
       case _ => Err(TypeError))
    case JObject(_) => Err(KeyError)
    case _ => Err(TypeError)
  }

  /**
   * The request that follows the contact search, given its `results` (absent results read as []):
   * an update of the first match without the email, or a creation that includes it.
   */
  function PushToHubSpot(lead: LeadRequest, results: Json): (r: Result<CrmRequest, Fault>)
    ensures (r.Ok? && r.value.CreateContact?) <==> !Truthy(results)
    ensures r.Err? <==> Truthy(results) && !HasFirstId(results)
    ensures r.Ok? && r.value.CreateContact? ==> r.value.properties == ContactProperties(lead, true)
    ensures r.Ok? && r.value.UpdateContact? ==>
              r.value.properties == ContactProperties(lead, false)
              && HasFirstId(results) && r.value.contactId == results.items[0].fields["id"]
  {
    if !Truthy(results) then Ok(CreateContact(ContactProperties(lead, true)))
    else
      match FirstResultId(results)
      case Err(f) => Err(f)
      case Ok(id) => Ok(UpdateContact(id, ContactProperties(lead, false)))
  }

  /** An update never writes the email; a creation writes exactly the update's properties plus the email. */
  lemma CreateIsUpdatePlusEmail(lead: LeadRequest)
    ensures "email" !in ContactProperties(lead, false)
    ensures ContactProperties(lead, true) == ContactProperties(lead, false)["email" := lead.email]
  {
  }
}

=== FILE: insertion_order.dfy ===
/**
 * First-occurrence deduplication: the element order of a JavaScript `Set`
 * built from a sequence, which keeps each distinct value at the position
 * where it was first inserted.
 */
module InsertionOrder {

  /** No value occurs twice in `s`. */
  predicate NoDuplicates<T(==)>(s: seq<T>) {
    forall i, j :: 0 <= i < j < |s| ==> s[i] != s[j]
  }

  /** The position of the first occurrence of `x` in `s`. */
  function FirstIndex<T(==)>(s: seq<T>, x: T): (k: nat)
    requires x in s
    ensures k < |s| && s[k] == x && x !in s[..k]
  {
    if s[0] == x then 0
    else
      var k := FirstIndex(s[1..], x) + 1;
      assert s[..k] == [s[0]] + s[1..][..k - 1];
      k
  }

  /** Inserting the elements of `s` one by one into an insertion-ordered set. */
  function Unique<T(==)>(s: seq<T>): (r: seq<T>)
  {
    if |s| == 0 then []
    else
      var last := s[|s| - 1];
      var before := Unique(s[..|s| - 1]);
      if last in before then before else before + [last]
  }

  /** The deduplicated sequence holds exactly the values of `s`. */
  lemma {:induction false} UniqueMembers<T(!new)>(s: seq<T>)
    ensures forall x :: x in Unique(s) <==> x in s
  {
    if |s| > 0 {
      assert s == s[..|s| - 1] + [s[|s| - 1]];
      UniqueMembers(s[..|s| - 1]);
    }
  }

  /** The deduplicated sequence holds each value once. */
  lemma {:induction false} UniqueNoDuplicates<T(!new)>(s: seq<T>)
    ensures NoDuplicates(Unique(s))
  {
    if |s| > 0 {
      UniqueNoDuplicates(s[..|s| - 1]);
      UniqueMembers(s[..|s| - 1]);
    }
  }

  /** The first-occurrence property pins the index down. */
  lemma {:induction false} FirstIndexUnique<T>(s: seq<T>, x: T, k: nat)
    requires k < |s| && s[k] == x && x !in s[..k]
    ensures FirstIndex(s, x) == k
  {
    if k > 0 {
      assert s[0] in s[..k];
      assert s[1..][..k - 1] == s[1..k];
      assert s[..k] == [s[0]] + s[1..k];
      FirstIndexUnique(s[1..], x, k - 1);
    }
  }

  /** Appending a value does not move the first occurrence of an element already present. */
  lemma FirstIndexAppend<T>(s: seq<T>, v: T, x: T)
    requires x in s
    ensures x in s + [v] && FirstIndex(s + [v], x) == FirstIndex(s, x)
  {
    var k := FirstIndex(s, x);
    assert (s + [v])[..k] == s[..k];
    FirstIndexUnique(s + [v], x, k);
  }

  /** The deduplicated sequence lists values in the order of their first occurrence. */
  lemma {:induction false} UniqueFollowsFirstOccurrence<T(!new)>(s: seq<T>, i: nat, j: nat)
    requires i < j < |Unique(s)|
    ensures Unique(s)[i] in s && Unique(s)[j] in s
    ensures FirstIndex(s, Unique(s)[i]) < FirstIndex(s, Unique(s)[j])
  {
    var n := |s|;
    var before, last := s[..n - 1], s[n - 1];
    assert s == before + [last];
    var u := Unique(before);
    UniqueMembers(s);
    UniqueMembers(before);
    assert Unique(s)[..|u|] == u;
    if j < |u| {
      UniqueFollowsFirstOccurrence(before, i, j);
      FirstIndexAppend(before, last, u[i]);
      FirstIndexAppend(before, last, u[j]);
    } else {
      assert Unique(s) == u + [last] && last !in before;
      assert u[i] in Unique(before);
      assert u[i] in before;
      FirstIndexAppend(before, last, u[i]);
      FirstIndexUnique(s, last, n - 1);
    }
  }

  // ----- deletion from an insertion-ordered collection -----

  /** Deleting a key from an insertion-ordered collection: its first occurrence leaves the order. */
  function Delete<T(==)>(s: seq<T>, x: T): (r: seq<T>)
  {
    if |s| == 0 then []
    else if s[0] == x then s[1..]
    else [s[0]] + Delete(s[1..], x)
  }

  /** Deletion cuts the key out at its first occurrence, and changes nothing when it is absent. */
  lemma {:induction false} DeleteSplices<T>(s: seq<T>, x: T)
    ensures x !in s ==> Delete(s, x) == s
    ensures x in s ==> Delete(s, x) == s[..FirstIndex(s, x)] + s[FirstIndex(s, x) + 1..]
  {
    if |s| > 0 && s[0] != x {
      DeleteSplices(s[1..], x);
      if x in s {
        var k := FirstIndex(s[1..], x);
        assert s[..k + 1] == [s[0]] + s[1..][..k];
        assert s[k + 2..] == s[1..][k + 1..];
      } else {
        assert s == [s[0]] + s[1..];
      }
    }
  }

  /** Without duplicates, deletion keeps exactly the other keys, each once. */
  lemma {:induction false} DeleteMembers<T(!new)>(s: seq<T>, x: T)
    requires NoDuplicates(s)
    ensures NoDuplicates(Delete(s, x))
    ensures forall y :: y in Delete(s, x) <==> y in s && y != x
  {
    if |s| > 0 {
      assert forall i, j :: 0 <= i < j < |s[1..]| ==> s[1..][i] == s[i + 1] && s[1..][j] == s[j + 1];
      assert forall y :: y in s[1..] ==> y != s[0];
      if s[0] != x {
        DeleteMembers(s[1..], x);
        var rest := Delete(s[1..], x);
        assert s[0] !in rest;
        assert Delete(s, x) == [s[0]] + rest;
        forall i, j | 0 <= i < j < |Delete(s, x)| ensures Delete(s, x)[i] != Delete(s, x)[j] {
          if i > 0 {
            assert Delete(s, x)[i] == rest[i - 1] && Delete(s, x)[j] == rest[j - 1];
          } else {
            assert Delete(s, x)[j] == rest[j - 1];
          }
        }
      }
    }
  }
}

=== FILE: lead_state.dfy ===
/**
 * The front end's lead bookkeeping: the emails of leads already processed,
 * and the leads the user has selected for processing, keyed by email.
 */
module LeadState {
  import opened Models
  import opened InsertionOrder

  /** One entry of the process-leads response as the front end reads it; `error` is "" when there was none. */
  datatype ProcessResult = ProcessResult(lead: LeadRequest, error: string)

  /** The emails a process-leads response marks as processed: results without error whose lead has an email. */
  function SucceededEmails(results: seq<ProcessResult>): (emails: set<string>)
    ensures forall e :: e in emails <==>
              exists k :: 0 <= k < |results| && results[k].error == "" && results[k].lead.email == e && e != ""
  {
    if |results| == 0 then {}
    else
      var last := results[|results| - 1];
      var before := SucceededEmails(results[..|results| - 1]);
      assert forall k :: 0 <= k < |results| - 1 ==> results[..|results| - 1][k] == results[k];
      if last.error == "" && last.lead.email != "" then before + {last.lead.email} else before
  }

  /** The leads stored under `keys`, in the order of `keys`. */
  function LeadsInOrder(keys: seq<string>, leads: map<string, LeadRequest>): (r: seq<LeadRequest>)
    requires forall e :: e in keys ==> e in leads
    ensures |r| == |keys|
    ensures forall k :: 0 <= k < |keys| ==> r[k] == leads[keys[k]]
  {
    if |keys| == 0 then [] else [leads[keys[0]]] + LeadsInOrder(keys[1..], leads)
  }

  /** A lead stored under a new key is listed last, after the leads listed before. */
  lemma NewKeyListedLast(keys: seq<string>, leads: map<string, LeadRequest>, lead: LeadRequest)
    requires forall e :: e in keys ==> e in leads
    requires lead.email !in keys
    ensures LeadsInOrder(keys + [lead.email], leads[lead.email := lead]) == LeadsInOrder(keys, leads) + [lead]
  {
  }

  class LeadBook {
    /** `selectedLeads`: email to lead. */
    var selected: map<string, LeadRequest>
    /** The insertion order of the keys of `selectedLeads`, which a JavaScript `Map` keeps. */
    var order: seq<string>
    /** `processedLeads`: emails of leads already processed. */
    var processed: set<string>

    /** The key order lists every selected email once. */
    ghost predicate Valid()
      reads this
    {
      NoDuplicates(order) && forall e :: e in order <==> e in selected
    }

    /** Both collections start empty. */
    constructor ()
      ensures Valid()
      ensures selected == map[] && order == [] && processed == {}
    {
      selected := map[];
      order := [];
      processed := {};
    }

    /** `Array.from(selectedLeads.values())`: the selected leads in insertion order. */
    function SelectedLeads(): (leads: seq<LeadRequest>)
      reads this
      requires Valid()
      ensures |leads| == |order| == |selected|
      ensures forall k :: 0 <= k < |order| ==> leads[k] == selected[order[k]]
    {
      DistinctKeysCount(order, selected.Keys);
      LeadsInOrder(order, selected)
    }

    /** isLeadProcessed: membership of the email in the processed set. */
    function IsLeadProcessed(email: string): (r: bool)
      reads this
      ensures r <==> email in processed
    {
      email in processed
    }

    /** markLeadAsProcessed: records the lead's email when it is non-empty; the selection is untouched. */
    method MarkLeadAsProcessed(lead: LeadRequest)
      modifies this
      ensures processed == if lead.email != "" then old(processed) + {lead.email} else old(processed)
      ensures selected == old(selected) && order == old(order)
      ensures lead.email != "" ==> IsLeadProcessed(lead.email)
    {
      if lead.email != "" {
        processed := processed + {lead.email};
      }
    }

    /**
     * addToSelected: a lead whose email was already processed is refused (the
     * user is alerted); otherwise it is stored under its email, replacing any
     * lead stored there. A replaced lead keeps its place in the order; a new
     * email goes last.
     */
    method AddToSelected(lead: LeadRequest) returns (alreadyProcessed: bool)
      requires Valid()
      modifies this
      ensures Valid()
      ensures alreadyProcessed <==> old(lead.email in processed)
      ensures processed == old(processed)
      ensures alreadyProcessed ==> selected == old(selected) && order == old(order)
      ensures !alreadyProcessed ==> selected == old(selected)[lead.email := lead]
      ensures !alreadyProcessed && lead.email in old(selected) ==> order == old(order)
      ensures !alreadyProcessed && lead.email !in old(selected) ==> order == old(order) + [lead.email]
    {
      if IsLeadProcessed(lead.email) {
        return true;
      }
      if lead.email !in selected {
        order := order + [lead.email];
      }
      selected := selected[lead.email := lead];
      return false;
    }

    /** removeLead: drops exactly the given email from the selection and from the key order. */
    method RemoveLead(email: string)
      requires Valid()
      modifies this
      ensures Valid()
      ensures selected == old(selected) - {email}
      ensures order == Delete(old(order), email)
      ensures processed == old(processed)
    {
      DeleteMembers(order, email);
      selected := selected - {email};
      order := Delete(order, email);
    }

    /** After a process-leads response: every result without error whose lead has an email is marked processed. */
    method MarkSucceeded(results: seq<ProcessResult>)
      modifies this
      ensures processed == old(processed) + SucceededEmails(results)
      ensures selected == old(selected) && order == old(order)
    {
      for k := 0 to |results|
        invariant processed == old(processed) + SucceededEmails(results[..k])
        invariant selected == old(selected) && order == old(order)
      {
        assert results[..k + 1][..k] == results[..k];
        if results[k].error == "" && results[k].lead.email != "" {
          MarkLeadAsProcessed(results[k].lead);
        }
      }
      assert results[..|results|] == results;
    }

    /** The selection is emptied once it has been processed. */
    method ClearSelected()
      modifies this
      ensures Valid()
      ensures selected == map[] && order == []
      ensures processed == old(processed)
    {
      selected := map[];
      order := [];
    }
  }

  /** A sequence of distinct keys that are exactly the keys of a set has the set's size. */
  lemma {:induction false} DistinctKeysCount(keys: seq<string>, ks: set<string>)
    requires NoDuplicates(keys)
    requires forall e :: e in keys <==> e in ks
    ensures |keys| == |ks|
  {
    if |keys| > 0 {
      var rest := keys[1..];
      assert forall i, j :: 0 <= i < j < |rest| ==> rest[i] == keys[i + 1] && rest[j] == keys[j + 1];
      assert forall e :: e in rest ==> e != keys[0];
      assert keys == [keys[0]] + rest;
      DistinctKeysCount(rest, ks - {keys[0]});
    }
  }
}

=== FILE: models.dfy ===
/** The records the service exchanges with its callers. */
module Models {
  /** A lead: every field is a required string, `message` defaults to "". */
  datatype LeadRequest = LeadRequest(
    firstname: string,
    lastname: string,
    email: string,
    phone: string,
    company: string,
    message: string)

  /** The search criteria of find-leads; only the job title is required, the others default to "". */
  datatype SearchRequest = SearchRequest(
    jobTitle: string,
    organizationName: string,
    location: string,
    industryTag: string)
}

=== FILE: phones.dfy ===
/**
 * Phone-number collection of the front end (`getPhoneNumbers`): every phone
 * field of a contact-info record is consulted in a fixed order, the two
 * phone arrays are appended, falsy entries are dropped and duplicates are
 * removed, keeping first occurrences.
 */
module Phones {
  import opened Wrappers
  import opened InsertionOrder

  /**
   * A JavaScript value as it can sit in a phone field. Objects (such as the
   * entries of a provider's phone array) are identified by reference, so two
   * objects are the same value only when `ref` agrees.
   */
  datatype JsValue =
    | Undefined
    | Null
    | Bool(b: bool)
    | Number(n: int)
    | Str(s: string)
    | Object(ref: nat)

  /** JavaScript truthiness. */
  predicate Truthy(v: JsValue) {
    match v
    case Undefined => false
    case Null => false
    case Bool(b) => b
    case Number(n) => n != 0
    case Str(s) => |s| > 0
    case Object(_) => true
  }

  /** The contact information attached to a lead; a missing field is `Undefined`, a missing array `None`. */
  datatype ContactInfo = ContactInfo(
    sanitizedPhone: JsValue,
    sanitizedMobilePhone: JsValue,
    enrichedSanitizedPhone: JsValue,
    enrichedSanitizedMobilePhone: JsValue,
    revealedSanitizedPhone: JsValue,
    revealedSanitizedMobilePhone: JsValue,
    directPhone: JsValue,
    mobilePhone: JsValue,
    revealedDirectPhone: JsValue,
    revealedMobilePhone: JsValue,
    phoneNumbers: Option<seq<JsValue>>,
    revealedPhoneNumbers: Option<seq<JsValue>>)

  /** The single-valued phone fields in the order they are consulted: six sanitized ones, then direct, mobile and revealed ones. */
  function PhoneFields(c: ContactInfo): seq<JsValue> {
    [c.sanitizedPhone, c.sanitizedMobilePhone,
     c.enrichedSanitizedPhone, c.enrichedSanitizedMobilePhone,
     c.revealedSanitizedPhone, c.revealedSanitizedMobilePhone,
     c.directPhone, c.mobilePhone,
     c.revealedDirectPhone, c.revealedMobilePhone]
  }

  /** The elements of an optional array; a missing array has none. */
  function Items(a: Option<seq<JsValue>>): seq<JsValue> {
    if a.Some? then a.value else []
  }

  /** Every phone candidate of `c`, in precedence order: the fields, then `phone_numbers`, then `revealed_phone_numbers`. */
  function Candidates(c: ContactInfo): seq<JsValue> {
    PhoneFields(c) + Items(c.phoneNumbers) + Items(c.revealedPhoneNumbers)
  }

  /** `s.filter(p => p)`. */
  function KeepTruthy(s: seq<JsValue>): (r: seq<JsValue>)
  {
    if |s| == 0 then []
    else
      var last := s[|s| - 1];
      KeepTruthy(s[..|s| - 1]) + (if Truthy(last) then [last] else [])
  }

  /**
   * The phone numbers of a lead: none without contact information, otherwise
   * the truthy candidates with duplicates removed, first occurrence first.
   */
  function PhoneNumbers(contactInfo: Option<ContactInfo>): seq<JsValue> {
    match contactInfo
    case None => []
    case Some(c) => Unique(KeepTruthy(Candidates(c)))
  }

  /** The value pushed for one field: the value when truthy, nothing otherwise. */
  function PushedIf(v: JsValue): seq<JsValue> {
    if Truthy(v) then [v] else []
  }

  /** The values spread from an array: all of them when it is present and non-empty. */
  function PushedArray(a: Option<seq<JsValue>>): seq<JsValue> {
    if a.Some? && |a.value| > 0 then a.value else []
  }

  /** Filtering keeps exactly the truthy values. */
  lemma {:induction false} KeepTruthyMembers(s: seq<JsValue>)
    ensures forall v :: v in KeepTruthy(s) <==> v in s && Truthy(v)
  {
    if |s| > 0 {
      assert s == s[..|s| - 1] + [s[|s| - 1]];
      KeepTruthyMembers(s[..|s| - 1]);
    }
  }

  lemma {:induction false} KeepTruthyConcat(a: seq<JsValue>, b: seq<JsValue>)
    ensures KeepTruthy(a + b) == KeepTruthy(a) + KeepTruthy(b)
  {
    if |b| == 0 {
      assert a + b == a;
    } else {
      assert (a + b)[..|a + b| - 1] == a + b[..|b| - 1];
      KeepTruthyConcat(a, b[..|b| - 1]);
    }
  }

  lemma {:induction false} KeepTruthyIdempotent(s: seq<JsValue>)
    ensures KeepTruthy(KeepTruthy(s)) == KeepTruthy(s)
  {
    if |s| > 0 {
      var last := s[|s| - 1];
      KeepTruthyIdempotent(s[..|s| - 1]);
      KeepTruthyConcat(KeepTruthy(s[..|s| - 1]), if Truthy(last) then [last] else []);
      assert KeepTruthy([last]) == if Truthy(last) then [last] else [] by {
        assert [last][..0] == [];
      }
    }
  }

  lemma KeepTruthySnoc(s: seq<JsValue>, v: JsValue)
    ensures KeepTruthy(s + [v]) == KeepTruthy(s) + PushedIf(v)
  {
    assert (s + [v])[..|s|] == s;
  }

  /** What the field checks push: each truthy field in turn. */
  function PushedFields(c: ContactInfo): seq<JsValue> {
    PushedIf(c.sanitizedPhone) + PushedIf(c.sanitizedMobilePhone)
    + PushedIf(c.enrichedSanitizedPhone) + PushedIf(c.enrichedSanitizedMobilePhone)
    + PushedIf(c.revealedSanitizedPhone) + PushedIf(c.revealedSanitizedMobilePhone)
    + PushedIf(c.directPhone) + PushedIf(c.mobilePhone)
    + PushedIf(c.revealedDirectPhone) + PushedIf(c.revealedMobilePhone)
  }

  /** What the collection phase pushes: the truthy fields, then each non-empty array. */
  function Pushed(c: ContactInfo): seq<JsValue> {
    PushedFields(c) + PushedArray(c.phoneNumbers) + PushedArray(c.revealedPhoneNumbers)
  }

  /** The field checks push exactly the truthy fields, in field order. */
  lemma PushedFieldsAreTruthyFields(c: ContactInfo)
    ensures PushedFields(c) == KeepTruthy(PhoneFields(c))
  {
    var fs: seq<JsValue> := [];
    var ps: seq<JsValue> := [];
    KeepTruthySnoc(fs, c.sanitizedPhone);
    fs, ps := fs + [c.sanitizedPhone], PushedIf(c.sanitizedPhone);
    assert ps == KeepTruthy(fs);
    KeepTruthySnoc(fs, c.sanitizedMobilePhone);
    fs, ps := fs + [c.sanitizedMobilePhone], ps + PushedIf(c.sanitizedMobilePhone);
    assert ps == KeepTruthy(fs);
    KeepTruthySnoc(fs, c.enrichedSanitizedPhone);
    fs, ps := fs + [c.enrichedSanitizedPhone], ps + PushedIf(c.enrichedSanitizedPhone);
    assert ps == KeepTruthy(fs);
    KeepTruthySnoc(fs, c.enrichedSanitizedMobilePhone);
    fs, ps := fs + [c.enrichedSanitizedMobilePhone], ps + PushedIf(c.enrichedSanitizedMobilePhone);
    assert ps == KeepTruthy(fs);
    KeepTruthySnoc(fs, c.revealedSanitizedPhone);
    fs, ps := fs + [c.revealedSanitizedPhone], ps + PushedIf(c.revealedSanitizedPhone);
    assert ps == KeepTruthy(fs);
    KeepTruthySnoc(fs, c.revealedSanitizedMobilePhone);
    fs, ps := fs + [c.revealedSanitizedMobilePhone], ps + PushedIf(c.revealedSanitizedMobilePhone);
    assert ps == KeepTruthy(fs);
    KeepTruthySnoc(fs, c.directPhone);
    fs, ps := fs + [c.directPhone], ps + PushedIf(c.directPhone);
    assert ps == KeepTruthy(fs);
    KeepTruthySnoc(fs, c.mobilePhone);
    fs, ps := fs + [c.mobilePhone], ps + PushedIf(c.mobilePhone);
    assert ps == KeepTruthy(fs);
    KeepTruthySnoc(fs, c.revealedDirectPhone);
    fs, ps := fs + [c.revealedDirectPhone], ps + PushedIf(c.revealedDirectPhone);
    assert ps == KeepTruthy(fs);
    KeepTruthySnoc(fs, c.revealedMobilePhone);
    fs, ps := fs + [c.revealedMobilePhone], ps + PushedIf(c.revealedMobilePhone);
    assert ps == KeepTruthy(fs);
    assert fs == PhoneFields(c);
  }

  /** Filtering what was pushed gives the same list as filtering all candidates. */
  lemma PushedKeepsTruthyCandidates(c: ContactInfo)
    ensures KeepTruthy(Pushed(c)) == KeepTruthy(Candidates(c))
  {
    var fs, a1, a2 := PhoneFields(c), c.phoneNumbers, c.revealedPhoneNumbers;
    PushedFieldsAreTruthyFields(c);
    assert KeepTruthy(PushedArray(a1)) == KeepTruthy(Items(a1));
    assert KeepTruthy(PushedArray(a2)) == KeepTruthy(Items(a2));
    KeepTruthyConcat(KeepTruthy(fs) + PushedArray(a1), PushedArray(a2));
    KeepTruthyConcat(KeepTruthy(fs), PushedArray(a1));
    KeepTruthyIdempotent(fs);
    KeepTruthyConcat(fs + Items(a1), Items(a2));
    KeepTruthyConcat(fs, Items(a1));
  }

  /** The ten field checks of getPhoneNumbers, sanitized fields first, then the other phone fields. */
  method PushPhoneFields(c: ContactInfo) returns (phones: seq<JsValue>)
    ensures phones == PushedFields(c)
  {
    phones := [];
    ghost var pushed: seq<JsValue> := [];
    if Truthy(c.sanitizedPhone) { phones := phones + [c.sanitizedPhone]; }
    pushed := PushedIf(c.sanitizedPhone);
    assert phones == pushed;
    if Truthy(c.sanitizedMobilePhone) { phones := phones + [c.sanitizedMobilePhone]; }
    pushed := pushed + PushedIf(c.sanitizedMobilePhone);
    assert phones == pushed;
    if Truthy(c.enrichedSanitizedPhone) { phones := phones + [c.enrichedSanitizedPhone]; }
    pushed := pushed + PushedIf(c.enrichedSanitizedPhone);
    assert phones == pushed;
    if Truthy(c.enrichedSanitizedMobilePhone) { phones := phones + [c.enrichedSanitizedMobilePhone]; }
    pushed := pushed + PushedIf(c.enrichedSanitizedMobilePhone);
    assert phones == pushed;
    if Truthy(c.revealedSanitizedPhone) { phones := phones + [c.revealedSanitizedPhone]; }
    pushed := pushed + PushedIf(c.revealedSanitizedPhone);
    assert phones == pushed;
    if Truthy(c.revealedSanitizedMobilePhone) { phones := phones + [c.revealedSanitizedMobilePhone]; }
    pushed := pushed + PushedIf(c.revealedSanitizedMobilePhone);
    assert phones == pushed;
    if Truthy(c.directPhone) { phones := phones + [c.directPhone]; }
    pushed := pushed + PushedIf(c.directPhone);
    assert phones == pushed;
    if Truthy(c.mobilePhone) { phones := phones + [c.mobilePhone]; }
    pushed := pushed + PushedIf(c.mobilePhone);
    assert phones == pushed;
    if Truthy(c.revealedDirectPhone) { phones := phones + [c.revealedDirectPhone]; }
    pushed := pushed + PushedIf(c.revealedDirectPhone);
    assert phones == pushed;
    if Truthy(c.revealedMobilePhone) { phones := phones + [c.revealedMobilePhone]; }
    pushed := pushed + PushedIf(c.revealedMobilePhone);
    assert phones == pushed;
  }

  /** The collection phase of getPhoneNumbers: the field checks, then the two arrays, spread when non-empty. */
  method CollectPhones(c: ContactInfo) returns (phones: seq<JsValue>)
    ensures phones == Pushed(c)
  {
    phones := PushPhoneFields(c);
    if c.phoneNumbers.Some? && |c.phoneNumbers.value| > 0 { phones := phones + c.phoneNumbers.value; }
    assert phones == PushedFields(c) + PushedArray(c.phoneNumbers);
    if c.revealedPhoneNumbers.Some? && |c.revealedPhoneNumbers.value| > 0 { phones := phones + c.revealedPhoneNumbers.value; }
  }

  /** `phones.filter(p => p)`. */
  method FilterTruthy(phones: seq<JsValue>) returns (truthy: seq<JsValue>)
    ensures truthy == KeepTruthy(phones)
  {
    truthy := [];
    for k := 0 to |phones|
      invariant truthy == KeepTruthy(phones[..k])
    {
      assert phones[..k + 1] == phones[..k] + [phones[k]];
      KeepTruthySnoc(phones[..k], phones[k]);
      if Truthy(phones[k]) {
        truthy := truthy + [phones[k]];
      }
    }
    assert phones[..|phones|] == phones;
  }

  /** `[...new Set(values)]`: each value once, at its first insertion. */
  method SpreadSet(values: seq<JsValue>) returns (unique: seq<JsValue>)
    ensures unique == Unique(values)
  {
    var seen: set<JsValue> := {};
    unique := [];
    for k := 0 to |values|
      invariant unique == Unique(values[..k])
      invariant forall v :: v in seen <==> v in unique
    {
      assert values[..k + 1][..k] == values[..k];
      if values[k] !in seen {
        seen := seen + {values[k]};
        unique := unique + [values[k]];
      }
    }
    assert values[..|values|] == values;
  }

  /** getPhoneNumbers: no phone numbers without contact information; otherwise collect, filter, deduplicate. */
  method GetPhoneNumbers(contactInfo: Option<ContactInfo>) returns (unique: seq<JsValue>)
    ensures unique == PhoneNumbers(contactInfo)
  {
    if contactInfo.None? {
      return [];
    }
    var phones := CollectPhones(contactInfo.value);
    PushedKeepsTruthyCandidates(contactInfo.value);
    var truthy := FilterTruthy(phones);
    unique := SpreadSet(truthy);
  }

  /** Filtering keeps the relative order of first occurrences of the values it keeps. */
  lemma {:induction false} KeepTruthyKeepsOrder(s: seq<JsValue>, x: JsValue, y: JsValue)
    requires x in s && Truthy(x) && y in s && Truthy(y)
    ensures x in KeepTruthy(s) && y in KeepTruthy(s)
    ensures FirstIndex(KeepTruthy(s), x) < FirstIndex(KeepTruthy(s), y) <==> FirstIndex(s, x) < FirstIndex(s, y)
  {
    var n := |s|;
    var before, last := s[..n - 1], s[n - 1];
    assert s == before + [last];
    var kept := KeepTruthy(before);
    assert KeepTruthy(s) == kept + PushedIf(last);
    KeepTruthyMembers(s);
    KeepTruthyMembers(before);
    assert x in before ==> x in kept;
    assert y in before ==> y in kept;
    if x in kept && y in kept {
      KeepTruthyKeepsOrder(before, x, y);
      FirstIndexAppend(before, last, x);
      FirstIndexAppend(before, last, y);
      if Truthy(last) {
        assert KeepTruthy(s) == kept + [last];
        FirstIndexAppend(kept, last, x);
        FirstIndexAppend(kept, last, y);
      } else {
        assert KeepTruthy(s) == kept;
      }
    } else if x in kept {
      assert y == last && y !in before;
      FirstIndexAppend(before, last, x);
      FirstIndexAppend(kept, last, x);
      FirstIndexUnique(s, y, n - 1);
      FirstIndexUnique(kept + [last], y, |kept|);
    } else if y in kept {
      assert x == last && x !in before;
      FirstIndexAppend(before, last, y);
      FirstIndexAppend(kept, last, y);
      FirstIndexUnique(s, x, n - 1);
      FirstIndexUnique(kept + [last], x, |kept|);
    } else {
      assert x == last == y;
    }
  }

  /** Without contact information there are no phone numbers. */
  lemma PhoneNumbersAbsent()
    ensures PhoneNumbers(None) == []
  {
  }

  /** No phone number is listed twice. */
  lemma PhoneNumbersNoDuplicates(contactInfo: Option<ContactInfo>)
    ensures NoDuplicates(PhoneNumbers(contactInfo))
  {
    if contactInfo.Some? {
      UniqueNoDuplicates(KeepTruthy(Candidates(contactInfo.value)));
    }
  }

  /** Every truthy candidate appears in the result, and nothing else does: no null, undefined, empty or zero entry. */
  lemma PhoneNumbersExactlyTruthyCandidates(c: ContactInfo)
    ensures forall v :: v in PhoneNumbers(Some(c)) <==> v in Candidates(c) && Truthy(v)
  {
    UniqueMembers(KeepTruthy(Candidates(c)));
    KeepTruthyMembers(Candidates(c));
  }

  /** The result lists phone numbers in the order of their first occurrence among the candidates. */
  lemma PhoneNumbersInCandidateOrder(c: ContactInfo, i: nat, j: nat)
    requires i < j < |PhoneNumbers(Some(c))|
    ensures PhoneNumbers(Some(c))[i] in Candidates(c) && PhoneNumbers(Some(c))[j] in Candidates(c)
    ensures FirstIndex(Candidates(c), PhoneNumbers(Some(c))[i]) < FirstIndex(Candidates(c), PhoneNumbers(Some(c))[j])
  {
    var t := KeepTruthy(Candidates(c));
    UniqueFollowsFirstOccurrence(t, i, j);
    KeepTruthyMembers(Candidates(c));
    KeepTruthyKeepsOrder(Candidates(c), Unique(t)[i], Unique(t)[j]);
  }
}

=== FILE: py_json.dfy ===
/**
 * Decoded JSON documents as the service's Python code sees them, with the
 * dictionary lookups it performs and the exceptions those can raise.
 */
module PyJson {
  import opened Wrappers

  /** A decoded JSON value (numbers kept integral). */
  datatype Json =
    | JNull
    | JBool(b: bool)
    | JNum(n: int)
    | JStr(s: string)
    | JArray(items: seq<Json>)
    | JObject(fields: map<string, Json>)

  /** The exceptions the service's own code raises on an unexpected shape of data. */
  datatype Fault =
    | AttributeError   // `.get` on something that is not a dict
    | KeyError         // a missing key looked up with `[...]`
    | TypeError        // subscripting a value that does not support it
    | ValidationError  // a LeadRequest field that is not a string

  /** Python truthiness of a decoded JSON value, as in `if value:`. */
  predicate Truthy(v: Json) {
    match v
    case JNull => false
    case JBool(b) => b
    case JNum(n) => n != 0
    case JStr(s) => |s| > 0
    case JArray(items) => |items| > 0
    case JObject(fields) => |fields| > 0
  }

  /** `d.get(key, default)`: the stored value whenever the key is present, even a null one. */
  function Get(d: map<string, Json>, key: string, default: Json): Json {
    if key in d then d[key] else default
  }

  /** `v.get(key, default)` on a value that must be a dict. */
  function GetOn(v: Json, key: string, default: Json): (r: Result<Json, Fault>)
    ensures r.Err? <==> !v.JObject?
    ensures r.Err? ==> r.error == AttributeError
    ensures r.Ok? ==> r.value == if key in v.fields then v.fields[key] else default
  {
    match v
    case JObject(fields) => Ok(Get(fields, key, default))
    case _ => Err(AttributeError)
  }
}

=== FILE: wrappers.dfy ===
/** Absent values and raised exceptions, written as values. */
module Wrappers {
  /** A value that may be missing (JavaScript's undefined/null, an optional argument). */
  datatype Option<T> = None | Some(value: T)

  /** The outcome of a step that may raise: the value, or the exception raised. */
  datatype Result<T, E> = Ok(value: T) | Err(error: E)
}
